=== FILE: README.md ===
# trapeza-import: a Dafny model of the import wizard's core

`trapeza-import.py` is a small Flask wizard. It matches an incoming
spreadsheet against a master spreadsheet, lets the user pick a master record
for each incoming line, and then resolves the user's per-column choices into
an output sheet. This project models the four pure pieces of that wizard and
proves properties about them:

- `flatten_record` (module `Flatten`). It builds the one-line summary
  `key: value; key: value` of a record, in header order.
- `generate_header_mapping` (module `HeaderMapping`). It maps incoming
  columns to master columns from the profile's mappings. The first mapping
  seen for a key wins.
- `group_results` (modules `Grouping` and `Sorting`). It runs
  `itertools.groupby` over the matcher's results by incoming line, sorts each
  run by descending score, and sorts the runs by line. `groupby` joins only
  consecutive results. So group lines are distinct only when the results
  arrive ordered by line, and the model states that as a conditional lemma,
  with a counterexample for unordered input.
- The record-building loop of `step_two` (modules `Form`, `Merge` and
  `Resolution`). For each group it reads the chosen master id from the form.
  It seeds the output record from the top-ranked incoming record and sets
  the primary-key column. Then it resolves every other column from the
  user's MASTER / USER / INCOMING choice. It either yields the output
  records or raises.

Two behaviours of the code are reproduced as written:

- The USER branch tests the choice string instead of the submitted text. So
  a USER choice always overwrites the column with the text box's value, even
  an empty one, and `None` when the box is absent. Output values are
  therefore `Option<string>`.
- The MASTER branch looks the column up through `header_map[key]`, and then
  in the chosen master record. This lookup runs only when "output only
  modified entries" is off and some candidate carries the chosen master id.
  In that case an unmapped column, or a master record without the mapped
  column, raises `KeyError`. Otherwise MASTER on an unmapped column raises
  nothing.

Python 2 dictionaries have no fixed iteration order, and the column loop
iterates over one. The model therefore resolves a record without an order
(`Merge.ResolveRecord`) and proves that the sequential loop (`Merge.RunSteps`)
succeeds or fails exactly when it does, and builds the same record, for
every enumeration of the columns. Which exception a failing record raises
can depend on that order (see "## Left out").

The intended design differs from this revision of the code in several
places, and the model follows the code:

- The design truncates the candidates of a line to a maximum count; this
  revision does not.
- The design has one group per incoming line; this revision has that only
  when the results arrive ordered by line.
- The design writes the user's text only when it is non-empty; this revision
  writes it unconditionally, as explained above.
- The design addresses each form field by a one-way hash of its element
  name, line, master id and column; this revision uses the plain formatted
  names `select<line>.<id>.<column>` and `userentrybox<line>.<id>.<column>`
  (trapeza-import.py:126 and 136), which is what `Form.SelectField` and
  `Form.UserEntryField` build.
- The design appends, when unmatched records are included, a second pass of
  every incoming record whose line has no group; this revision has no such
  pass, so `Resolution.StepTwo` outputs records only for grouped lines.
- The design adds a new-address column driven by a per-field "modified" flag
  and a per-line checkbox; this revision has neither.
- The design reports invalid form data as a message followed by a redirect to
  the start page; this revision raises an uncaught exception
  (trapeza-import.py:143), which the model records as the
  `InvalidFormData` failure that aborts the whole resolution.

Calls into the external `trapeza` library are abstract inputs:

- `compare_sources` is the sequence of `MatchResult`s.
- `record_id()` is the `recordId` field.
- The submitted form is a `map<string, string>`; an absent name reads as
  `None`.

## Model

| member | source | states |
|---|---|---|
| Flatten.FlattenRecord | trapeza-import.py:28-29 | The summary exists exactly when every header is a column of the record; otherwise the lookup raises `KeyError`. No headers give `""`, and one header gives `key: value`. |
| Flatten.SplitJoin | trapeza-import.py:29 | `Join`, Python's `"; ".join`, is undone by splitting at `"; "`. Joining pieces with `"; "` and splitting at `"; "` gives the pieces back, provided none contains the separator. |
| Flatten.FlattenRecordSplits | trapeza-import.py:28-29 | The summary is unambiguous. When no piece contains `"; "`, splitting it recovers exactly one `key: value` piece per header, in order. |
| HeaderMapping.HeaderMap | trapeza-import.py:31-38 | The map's keys are exactly the mapping keys. Each key maps to the master column of the first mapping with that key. |
| HeaderMapping.LaterDuplicatesIgnored | trapeza-import.py:35-36 | Appending mappings whose keys are already mapped leaves the header map unchanged. |
| HeaderMapping.HeaderMapIdempotent | trapeza-import.py:31-38 | Listing the profile's mappings twice gives the same header map as listing them once. |
| Sorting.SortBy | trapeza-import.py:46-48 | Python's `sorted` returns a permutation of its input, ordered by the key. |
| Sorting.SortByStable | trapeza-import.py:46-48 | The sort is stable. For every key value, the elements with that key keep their input order. |
| Sorting.SortBySortedIsIdentity | trapeza-import.py:48 | Sorting a list that is already in key order changes nothing. |
| Grouping.Runs | trapeza-import.py:43-45 | The `groupby` runs concatenate back to the input. No run is empty or mixes lines, and neighbouring runs have different lines. |
| Grouping.SortRuns | trapeza-import.py:46 | Each run keeps its line and its multiset of results, and its scores are non-increasing. |
| Grouping.ConcatSortRuns | trapeza-import.py:46 | Ranking the results inside each run loses and adds no result. |
| Grouping.ConcatSortBy | trapeza-import.py:48 | Sorting the groups by line loses and adds no result. |
| Grouping.GroupResults | trapeza-import.py:40-48 | There is one group per `groupby` run of equal lines (`Runs`). The groups hold a permutation of the matcher's results. Each group is non-empty, holds only results of its own line, and is ranked by non-increasing score. The groups are ordered by non-decreasing line. |
| Grouping.RunsOfOrderedInput | trapeza-import.py:43-45 | For results ordered by line, the run lines strictly increase, and none is below the first result's line. |
| Grouping.OrderedInputGivesDistinctLines | trapeza-import.py:40-48 | For results ordered by line, the group lines are pairwise distinct (strictly increasing). |
| Grouping.UnorderedInputRepeatsLines | trapeza-import.py:43-48 | For results on lines 1, 2, 1, there are three groups, and the first two are both for line 1. |
| Grouping.RankingExample | trapeza-import.py:46 | Two candidates for one line, scored 77 then 91, form one group with the 91 first. |
| Merge.FirstCandidate | trapeza-import.py:129-132 | Finds the first candidate whose master `record_id()` equals the chosen id, where the loop breaks, or reports that none does. |
| Merge.FieldStep | trapeza-import.py:124-143 | A step changes only its own column and keeps the key set. The primary-key column is skipped. |
| Merge.RunSteps | trapeza-import.py:124-143 | The column loop keeps the key set. Columns it does not visit, and the primary key, keep their values. |
| Merge.RunStepsResolvesEach | trapeza-import.py:124-143 | The loop succeeds exactly when every visited non-key column resolves. Each such column then holds the value resolved from its value before the loop. |
| Merge.ResolveRecordResolvesEach | trapeza-import.py:124-143 | `ResolveRecord`, the column loop without an order: order-free resolution succeeds exactly when every non-key column resolves. It then keeps the keys and the primary key, and holds each resolved value. |
| Merge.LoopSuccessIsFreeSuccess | trapeza-import.py:124-143 | For any enumeration of the record's columns, the loop succeeds exactly when order-free resolution does. |
| Merge.LoopValueIsFreeValue | trapeza-import.py:124-143 | For any enumeration of the record's columns, a successful loop yields the same record as order-free resolution. |
| Merge.LoopOrderIrrelevant | trapeza-import.py:124-143 | The dictionary's iteration order changes neither whether the record builds nor what it holds. |
| Merge.FieldMeaning | trapeza-import.py:126-143 | `ResolveField`, one column's choice, with `ParseChoice` reading the select value: a column resolves exactly when its choice is recognised and any MASTER lookup succeeds. It fails with "Invalid form data." exactly for an unrecognised choice. Otherwise it takes the value listed after this table. |
| Merge.SeedMeaning | trapeza-import.py:121-122 | `Seed`, the record before the column loop: the seeded record has the incoming columns plus the primary key. The primary key holds `master_id or ""`, and every other column holds its incoming value. |
| Merge.MergeLineMeaning | trapeza-import.py:118-143 | `MergeLine`, one group's record: an empty group is exactly the `IndexError` case. Otherwise the record builds exactly when every non-key column is resolvable, and an unrecognised choice raises "Invalid form data.". A built record has the incoming columns plus the primary key, resolved as chosen. |
| Resolution.StepTwoMeaning | trapeza-import.py:111-145 | `StepTwo`, the whole resolution of a stored operation: the header map has exactly the profile's mapping keys. One record is output per emitted line, in group order, each being that line's record, exactly when every emitted line's record builds; otherwise nothing is output. |
| Resolution.EmittedPrimaryKey | trapeza-import.py:118-122 | `Emits` and `master_id or ""`: every output record has the primary-key column. It holds the chosen master id whenever one was chosen, and holds `""` only when unmatched records are included. |
| Form.NatToStringStartsWithDigit | trapeza-import.py:118 | `str(line)` for a non-negative line is a non-empty numeral starting with a digit. |
| Form.FieldNamesDistinct | trapeza-import.py:118-136 | `SelectField` and `UserEntryField` build the names read at lines 126 and 136. A select name, a text-box name and a line's master-id name never coincide. |
| Resolution.CollectMeaning | trapeza-import.py:116-145 | A loop that stops at the first raise succeeds exactly when every kept element builds, and then yields their outputs in order. Otherwise it raises the first kept element's error, and every earlier element built. |
| Resolution.MergeAllMeaning | trapeza-import.py:116-145 | `MergeAll`, the loop over the groups, with `Emits` deciding which groups get a record: a record is output for a group exactly when its master id is non-empty or unmatched records are included. Records come in group order, one per such group. Otherwise the first failing group's exception aborts everything. |
| Resolution.OutputRecords | trapeza-import.py:116-145 | Each output record is its group's record. It has the incoming columns plus the primary key, the primary key holds the chosen id or `""`, and every other column is resolved as chosen. |
| Resolution.InvalidChoiceAbortsResolution | trapeza-import.py:139-143 | One unrecognised choice for a column of an emitted line aborts the whole resolution, and no record is output. |
| Resolution.NonEmptyGroupsNeverIndexError | trapeza-import.py:121 | When no group is empty, the resolution never fails on `matches[0]`. |
| Resolution.GroupedResultsNeverIndexError | trapeza-import.py:116-121 | Groups built by `group_results` never make `step_two` fail on `matches[0]`. |
| Resolution.MasterUsesFirstMapping | trapeza-import.py:111-131 | A MASTER choice, when "output only modified entries" is off, copies into the output the master column named by the first profile mapping of that incoming column. |
| MergeExamples.Line3Names | trapeza-import.py:118-136 | The form names `3`, `select3.M1.Phone` and `userentrybox3.M1.Phone` are the ones the code reads for line 3, master `M1`, column Phone. |
| MergeExamples.SingleEmittedLine | trapeza-import.py:116-145 | A single emitted line whose record builds gives exactly that one record. |
| MergeExamples.MasterChoiceCopiesMasterValue | trapeza-import.py:127-132 | MASTER copies the chosen master's Phone and sets the primary key to the chosen id. |
| MergeExamples.MasterChoiceBlankedWhenOnlyModified | trapeza-import.py:127-134 | With "output only modified entries", MASTER blanks the column. |
| MergeExamples.UserChoiceWithoutTextWritesNone | trapeza-import.py:135-138 | USER without a text box overwrites the column with `None`. |

`Merge.FieldMeaning` gives a resolved column one of these values:

- MASTER with "output only modified entries" on: `""`.
- MASTER with that option off: the mapped master value of the first matching
  candidate, or the incoming value when no candidate matches.
- USER: the text box's value, possibly `None`.
- INCOMING, empty or absent: the incoming value.

## Left out

- Flask routes, `request` and `session`, template rendering and the download response: HTTP plumbing with no logic of its own.
- Pickling the operation to a temporary file and deleting it afterwards: I/O. `Resolution.Operation` is the state that was stored.
- The external `trapeza` library. This covers loading sources, the fuzzy matcher `compare_sources` and its cutoff, `set_primary_key`, and the internals of `Source` and `Record`. Its results enter the model as abstract inputs.
- Building the output `Source` with the added primary-key column, and writing it as CSV. The model yields the output records in order; column order and CSV quoting are not modelled.
- Parsing `cutoff` with `int(...)`: it is only passed on to the external matcher.
- Merge.ResolveRecord: one record may contain both an unrecognised choice and a failing MASTER lookup. Which exception Python raises then depends on dictionary order. The model always reports "Invalid form data." (`InvalidFormData`), so `Merge.MergeLineMeaning` states the `KeyError` case only by elimination.
- Merge.Seed: it assumes `trapeza.Record(...)` copies the incoming values. If it shared the dictionary, every write of the resolution would land in the top-ranked incoming record: the primary key and each MASTER, USER (possibly `None`) or blanked `""` value. A later group for the same line, which unordered matcher output can produce (`Grouping.UnorderedInputRepeatsLines`), would then start from those values and keep them on INCOMING.
- Records.MatchResult: scores are integers. The matcher's score may be a float, but the code only compares scores (trapeza-import.py:46), so an integer stands for it. NaN ordering is not modelled.
- Form fields are single-valued strings. Multi-valued form fields are not modelled.
- Form.FieldName: Python 2's coercion between `str` and `unicode` is not modelled. Form values, master ids, column names and values are assumed to be ASCII. A non-ASCII master id such as `u"Mé"` makes `str.format` raise `UnicodeEncodeError` while building a field name, and then no record is output; the model builds the record instead.
- Flatten.FlattenRecord: the same coercion is not modelled. A non-ASCII column name or value could make `str.format` raise where the model returns a summary.

=== FILE: examples_merge.dfy ===
/** Worked cases of the resolution loop on one incoming line. */
module MergeExamples {
  import opened Wrappers
  import opened Records
  import opened Form
  import opened Merge
  import opened Resolution

  /** Incoming line 3 with one candidate, master record "M1" whose Phone is 555-1212. */
  function Line3(): Group {
    Group(3, [MatchResult(
      Record(3, map["Phone" := "555-0000"], ""),
      Record(8, map["Phone" := "555-1212"], "M1"),
      91)])
  }

  function PhoneOptions(onlyModified: bool): Options {
    Options("CustomerID", false, onlyModified, map["Phone" := "Phone"])
  }

  lemma Line3Names()
    ensures MasterIdField(3) == "3"
    ensures SelectField(3, Some("M1"), "Phone") == "select3.M1.Phone"
    ensures UserEntryField(3, Some("M1"), "Phone") == "userentrybox3.M1.Phone"
  {
    assert IntToString(3) == "3";
  }

  lemma SingleEmittedLine(g: Group, form: Form, opts: Options)
    requires Emits(g, form, opts) && MergeLine(g, form, opts).Success?
    ensures MergeAll([g], form, opts) == Success([MergeLine(g, form, opts).value])
  {
    MergeAllMeaning([g], form, opts);
    var es := Emitted([g], form, opts);
    assert es == [g] by {
      assert [g][1..] == [];
    }
    assert MergeLine(es[0], form, opts).Success?;
    var r := MergeAll([g], form, opts);
    assert r.Success?;
    assert |r.value| == 1 && MergeLine(es[0], form, opts) == Success(r.value[0]);
    assert r.value == [MergeLine(g, form, opts).value];
  }

  /** MASTER for Phone copies the chosen master's Phone. */
  lemma MasterChoiceCopiesMasterValue()
    ensures MergeAll([Line3()], map["3" := "M1", "select3.M1.Phone" := "MASTER"], PhoneOptions(false))
         == Success([map["Phone" := Some("555-1212"), "CustomerID" := Some("M1")]])
  {
    var form := map["3" := "M1", "select3.M1.Phone" := "MASTER"];
    var g := Line3();
    Line3Names();
    assert ChosenId(form, 3) == Some("M1");
    assert Selection(g, form, "Phone") == Some("MASTER");
    assert FirstCandidate(g.matches, Some("M1")) == Some(0);
    MergeLineMeaning(g, form, PhoneOptions(false));
    var out := MergeLine(g, form, PhoneOptions(false)).value;
    SingleEmittedLine(g, form, PhoneOptions(false));
    assert out == map["Phone" := Some("555-1212"), "CustomerID" := Some("M1")];
  }

  /** With "output only modified entries" the same choice blanks the field. */
  lemma MasterChoiceBlankedWhenOnlyModified()
    ensures MergeAll([Line3()], map["3" := "M1", "select3.M1.Phone" := "MASTER"], PhoneOptions(true))
         == Success([map["Phone" := Some(""), "CustomerID" := Some("M1")]])
  {
    var form := map["3" := "M1", "select3.M1.Phone" := "MASTER"];
    var g := Line3();
    Line3Names();
    assert ChosenId(form, 3) == Some("M1");
    assert Selection(g, form, "Phone") == Some("MASTER");
    MergeLineMeaning(g, form, PhoneOptions(true));
    var out := MergeLine(g, form, PhoneOptions(true)).value;
    SingleEmittedLine(g, form, PhoneOptions(true));
    assert out == map["Phone" := Some(""), "CustomerID" := Some("M1")];
  }

  /** USER without a text box overwrites Phone with `None`: the guard tests
      the choice string, not the submitted text. */
  lemma UserChoiceWithoutTextWritesNone()
    ensures MergeAll([Line3()], map["3" := "M1", "select3.M1.Phone" := "USER"], PhoneOptions(false))
         == Success([map["Phone" := None, "CustomerID" := Some("M1")]])
  {
    var form := map["3" := "M1", "select3.M1.Phone" := "USER"];
    var g := Line3();
    Line3Names();
    assert ChosenId(form, 3) == Some("M1");
    assert Selection(g, form, "Phone") == Some("USER");
    assert UserText(g, form, "Phone") == None;
    MergeLineMeaning(g, form, PhoneOptions(false));
    var out := MergeLine(g, form, PhoneOptions(false)).value;
    SingleEmittedLine(g, form, PhoneOptions(false));
    assert out == map["Phone" := None, "CustomerID" := Some("M1")];
  }
}

=== FILE: flatten.dfy ===
/** `flatten_record`: a one-line summary `key: value; key: value` of a record. */
module Flatten {
  import opened Wrappers

  /** The text between two pieces. */
  const Separator: string := "; "

  /** One `key: value` piece. */
  function Piece(key: string, value: string): string {
    key + ": " + value
  }

  /** Python's `"; ".join(pieces)`. */
  function Join(pieces: seq<string>): string
    decreases |pieces|
  {
    if |pieces| == 0 then ""
    else if |pieces| == 1 then pieces[0]
    else pieces[0] + Separator + Join(pieces[1..])
  }

  /** Python's `s.split("; ")`: scanning left to right, every occurrence of
      the separator ends one part; there is always at least one part. */
  function Split(s: string): (parts: seq<string>)
    ensures |parts| > 0
    decreases |s|
  {
    if |s| < 2 then [s]
    else if s[0] == ';' && s[1] == ' ' then [""] + Split(s[2..])
    else
      var rest := Split(s[1..]);
      [[s[0]] + rest[0]] + rest[1..]
  }

  /** `s` contains the separator somewhere. */
  ghost predicate HasSeparator(s: string) {
    exists i :: 0 <= i < |s| - 1 && s[i] == ';' && s[i + 1] == ' '
  }

  /** The pieces for `headers`, in header order. */
  function Pieces(values: map<string, string>, headers: seq<string>): (ps: seq<string>)
    requires forall i :: 0 <= i < |headers| ==> headers[i] in values
    ensures |ps| == |headers|
    ensures forall i :: 0 <= i < |headers| ==> ps[i] == Piece(headers[i], values[headers[i]])
    decreases |headers|
  {
    if |headers| == 0 then []
    else [Piece(headers[0], values[headers[0]])] + Pieces(values, headers[1..])
  }

  /** `flatten_record(record, headers)`; `None` stands for the `KeyError`
      raised when a header is not a column of the record. */
  function FlattenRecord(values: map<string, string>, headers: seq<string>): (r: Option<string>)
    ensures r.Some? <==> forall i :: 0 <= i < |headers| ==> headers[i] in values
    ensures r.Some? && |headers| == 0 ==> r.value == ""
    ensures r.Some? && |headers| == 1 ==> r.value == headers[0] + ": " + values[headers[0]]
  {
    if forall i :: 0 <= i < |headers| ==> headers[i] in values
    then Some(Join(Pieces(values, headers)))
    else None
  }

  lemma NoSeparatorInTail(p: string)
    requires |p| >= 1 && !HasSeparator(p)
    ensures !HasSeparator(p[1..])
  {
    forall i | 0 <= i < |p[1..]| - 1
      ensures !(p[1..][i] == ';' && p[1..][i + 1] == ' ')
    {
      assert p[1..][i] == p[i + 1] && p[1..][i + 1] == p[i + 2];
    }
  }

  lemma {:induction false} SplitWithoutSeparator(p: string)
    requires !HasSeparator(p)
    ensures Split(p) == [p]
    decreases |p|
  {
    if |p| >= 2 {
      assert !(p[0] == ';' && p[1] == ' ');
      NoSeparatorInTail(p);
      SplitWithoutSeparator(p[1..]);
      assert [p[0]] + p[1..] == p;
    }
  }

  lemma {:induction false} SplitAfterPiece(p: string, t: string)
    requires !HasSeparator(p)
    ensures Split(p + Separator + t) == [p] + Split(t)
    decreases |p|
  {
    var s := p + Separator + t;
    if |p| == 0 {
      assert s[2..] == t;
    } else {
      assert !(s[0] == ';' && s[1] == ' ') by {
        if |p| >= 2 {
          assert s[0] == p[0] && s[1] == p[1];
        } else {
          assert s[1] == ';';
        }
      }
      NoSeparatorInTail(p);
      assert s[1..] == p[1..] + Separator + t;
      SplitAfterPiece(p[1..], t);
      assert [p[0]] + p[1..] == p;
    }
  }

  /** Joining pieces that do not contain the separator and splitting the
      result again gives back the pieces. */
  lemma {:induction false} SplitJoin(pieces: seq<string>)
    requires |pieces| > 0
    requires forall i :: 0 <= i < |pieces| ==> !HasSeparator(pieces[i])
    ensures Split(Join(pieces)) == pieces
    decreases |pieces|
  {
    if |pieces| == 1 {
      SplitWithoutSeparator(pieces[0]);
    } else {
      SplitAfterPiece(pieces[0], Join(pieces[1..]));
      SplitJoin(pieces[1..]);
      assert [pieces[0]] + pieces[1..] == pieces;
    }
  }

  /** The summary is unambiguous: when no key or value holds the separator
      and there is at least one header, splitting the summary at `"; "`
      recovers exactly one `key: value` piece per header, in header order. */
  lemma FlattenRecordSplits(values: map<string, string>, headers: seq<string>)
    requires |headers| > 0
    requires forall i :: 0 <= i < |headers| ==> headers[i] in values
    requires forall i :: 0 <= i < |headers| ==> !HasSeparator(Piece(headers[i], values[headers[i]]))
    ensures FlattenRecord(values, headers).Some?
    ensures Split(FlattenRecord(values, headers).value) == Pieces(values, headers)
  {
    SplitJoin(Pieces(values, headers));
  }
}

=== FILE: form.dfy ===
/**
  The submitted resolution form: field name -> submitted text. A name that
  is not in the map reads as `None`, as `request.form.get` returns.
*/
module Form {
  import opened Wrappers

  type Form = map<string, string>

  /** `request.form.get(name)`. */
  function Get(form: Form, name: string): Option<string> {
    if name in form then Some(form[name]) else None
  }

  function DigitChar(d: int): char
    requires 0 <= d < 10
  {
    "0123456789"[d]
  }

  function NatToString(n: nat): string
    decreases n
  {
    if n < 10 then [DigitChar(n)] else NatToString(n / 10) + [DigitChar(n % 10)]
  }

  /** A decimal numeral never starts with a letter: its first character is a digit. */
  lemma {:induction false} NatToStringStartsWithDigit(n: nat)
    ensures |NatToString(n)| > 0 && '0' <= NatToString(n)[0] <= '9'
    decreases n
  {
    if n >= 10 {
      NatToStringStartsWithDigit(n / 10);
    }
  }

  /** Python's `str(n)` for an integer: decimal digits, `-` in front when negative. */
  function IntToString(n: int): string {
    if n < 0 then "-" + NatToString(-n) else NatToString(n)
  }

  /** What `"{0}".format(x)` writes for an optional string: `None` is spelled out. */
  function FormatOptional(s: Option<string>): string {
    match s
    case None => "None"
    case Some(t) => t
  }

  /** Python truthiness of an optional string: present and non-empty. */
  predicate Truthy(s: Option<string>) {
    s.Some? && s.value != ""
  }

  /** The name of the field that holds the master id chosen for a line. */
  function MasterIdField(line: int): string {
    IntToString(line)
  }

  /** `"<prefix>{0}.{1}.{2}".format(line, master_id, key)`. */
  function FieldName(prefix: string, line: int, masterId: Option<string>, key: string): string {
    prefix + IntToString(line) + "." + FormatOptional(masterId) + "." + key
  }

  /** The field holding the choice made for one column of one line. */
  function SelectField(line: int, masterId: Option<string>, key: string): string {
    FieldName("select", line, masterId, key)
  }

  /** The free-text box for one column of one line. */
  function UserEntryField(line: int, masterId: Option<string>, key: string): string {
    FieldName("userentrybox", line, masterId, key)
  }

  /** The enumerated choice a select field can carry. */
  datatype Choice = UseMaster | UseUser | KeepIncoming | Unrecognised

  /** `"MASTER"`, `"USER"`, and `"INCOMING"`/empty/absent are the recognised values. */
  function ParseChoice(v: Option<string>): Choice {
    match v
    case None => KeepIncoming
    case Some(s) =>
      if s == "MASTER" then UseMaster
      else if s == "USER" then UseUser
      else if s == "INCOMING" || s == "" then KeepIncoming
      else Unrecognised
  }

  /** The three kinds of field the resolution reads never share a name: the
      master id field of a line starts with a digit or `-`, the others with
      their `select` / `userentrybox` prefix. */
  lemma FieldNamesDistinct(line: int, id: Option<string>, key: string,
                           line2: int, id2: Option<string>, key2: string, line3: int)
    ensures SelectField(line, id, key) != UserEntryField(line2, id2, key2)
    ensures MasterIdField(line3) != SelectField(line, id, key)
    ensures MasterIdField(line3) != UserEntryField(line2, id2, key2)
  {
    assert SelectField(line, id, key)[0] == 's';
    assert UserEntryField(line2, id2, key2)[0] == 'u';
    if line3 >= 0 {
      NatToStringStartsWithDigit(line3);
    }
    assert MasterIdField(line3)[0] != 's' && MasterIdField(line3)[0] != 'u';
  }
}

=== FILE: grouping.dfy ===
/**
  `group_results`: `itertools.groupby` over the matcher's results by incoming
  line, each run sorted by descending score, then the runs sorted by line.
  `groupby` only joins CONSECUTIVE results with the same line, so a line whose
  results are not adjacent yields several groups.
*/
module Grouping {
  import opened Records
  import Sorting

  /** Every result in `ms` belongs to incoming line `line`. */
  ghost predicate OnLine(ms: seq<MatchResult>, line: int) {
    forall m :: m in ms ==> LineOf(m) == line
  }

  /** Scores never increase along `ms`. */
  ghost predicate ScoresDescending(ms: seq<MatchResult>) {
    forall i, j :: 0 <= i < j < |ms| ==> ms[i].score >= ms[j].score
  }

  /** The results are ordered by non-decreasing incoming line. */
  ghost predicate OrderedByLine(rs: seq<MatchResult>) {
    forall i, j :: 0 <= i < j < |rs| ==> LineOf(rs[i]) <= LineOf(rs[j])
  }

  function NegatedScore(m: MatchResult): int {
    -m.score
  }

  function GroupLine(g: Group): int {
    g.line
  }

  lemma ConcatCons(g: Group, gs: seq<Group>)
    ensures Concat([g] + gs) == g.matches + Concat(gs)
  {
    assert ([g] + gs)[1..] == gs;
  }

  /** No run is empty, each holds results of its own line only, and two
      neighbouring runs never share a line. */
  ghost predicate MaximalRuns(gs: seq<Group>) {
    && (forall g :: g in gs ==> |g.matches| > 0 && OnLine(g.matches, g.line))
    && (forall i :: 0 <= i < |gs| - 1 ==> gs[i].line != gs[i + 1].line)
  }

  /** Dropping the first run keeps the rest maximal. */
  lemma MaximalRunsTail(gs: seq<Group>)
    requires MaximalRuns(gs) && |gs| > 0
    ensures MaximalRuns(gs[1..])
    ensures |gs| > 1 ==> gs[1..][0].line != gs[0].line
  {
    var t := gs[1..];
    forall h | h in t
      ensures |h.matches| > 0 && OnLine(h.matches, h.line)
    {
      var k :| 0 <= k < |t| && t[k] == h;
      assert gs[k + 1] in gs;
    }
    forall i | 0 <= i < |t| - 1
      ensures t[i].line != t[i + 1].line
    {
      assert t[i] == gs[i + 1] && t[i + 1] == gs[i + 2];
    }
  }

  /** A well-formed run whose line differs from the next run's line can be
      put in front of maximal runs. */
  lemma MaximalRunsCons(g: Group, gs: seq<Group>)
    requires MaximalRuns(gs) && |g.matches| > 0 && OnLine(g.matches, g.line)
    requires |gs| > 0 ==> gs[0].line != g.line
    ensures MaximalRuns([g] + gs)
  {
    var s := [g] + gs;
    forall h | h in s
      ensures |h.matches| > 0 && OnLine(h.matches, h.line)
    {
      if h != g {
        assert h in gs;
      }
    }
    forall i | 0 <= i < |s| - 1
      ensures s[i].line != s[i + 1].line
    {
      assert s[i + 1] == gs[i];
      if i > 0 {
        assert s[i] == gs[i - 1];
      }
    }
  }

  /** Prepending `r` to a run of its own line keeps it within that line. */
  lemma JoinFirstRun(r: MatchResult, h: Group)
    requires OnLine(h.matches, h.line) && h.line == LineOf(r)
    ensures OnLine([r] + h.matches, h.line)
  {
    forall m | m in [r] + h.matches
      ensures LineOf(m) == h.line
    {
      if m != r {
        assert m in h.matches;
      }
    }
  }

  /** A result on the same line as the first run joins that run: the runs
      stay maximal ... */
  lemma ExtendRun(r: MatchResult, tail: seq<Group>)
    requires MaximalRuns(tail) && |tail| > 0 && tail[0].line == LineOf(r)
    ensures MaximalRuns([Group(tail[0].line, [r] + tail[0].matches)] + tail[1..])
  {
    var g := Group(tail[0].line, [r] + tail[0].matches);
    assert tail[0] in tail;
    JoinFirstRun(r, tail[0]);
    MaximalRunsTail(tail);
    MaximalRunsCons(g, tail[1..]);
  }

  /** ... and still hold the same results, `r` first. */
  lemma ExtendRunConcat(r: MatchResult, tail: seq<Group>)
    requires |tail| > 0
    ensures Concat([Group(tail[0].line, [r] + tail[0].matches)] + tail[1..]) == [r] + Concat(tail)
  {
    ConcatCons(Group(tail[0].line, [r] + tail[0].matches), tail[1..]);
  }

  /** A result on another line than the first run starts a run of its own. */
  lemma StartRun(r: MatchResult, tail: seq<Group>)
    requires MaximalRuns(tail) && (|tail| > 0 ==> tail[0].line != LineOf(r))
    ensures var gs := [Group(LineOf(r), [r])] + tail;
      MaximalRuns(gs) && Concat(gs) == [r] + Concat(tail)
  {
    var g := Group(LineOf(r), [r]);
    ConcatCons(g, tail);
    MaximalRunsCons(g, tail);
  }

  /** The maximal runs of consecutive results with the same line, as
      `groupby` yields them: concatenated they give back the input, no run
      is empty or mixes lines, and neighbouring runs differ in line. */
  function Runs(rs: seq<MatchResult>): (gs: seq<Group>)
    ensures Concat(gs) == rs
    ensures MaximalRuns(gs)
    ensures |rs| > 0 ==> |gs| > 0 && gs[0].line == LineOf(rs[0])
    decreases |rs|
  {
    if |rs| == 0 then []
    else
      var tail := Runs(rs[1..]);
      assert rs == [rs[0]] + rs[1..];
      if |tail| > 0 && tail[0].line == LineOf(rs[0]) then
        ExtendRun(rs[0], tail);
        ExtendRunConcat(rs[0], tail);
        [Group(tail[0].line, [rs[0]] + tail[0].matches)] + tail[1..]
      else
        StartRun(rs[0], tail);
        [Group(LineOf(rs[0]), [rs[0]])] + tail
  }

  /** Each run with its results sorted by descending score (stable). */
  function SortRuns(gs: seq<Group>): (r: seq<Group>)
    ensures |r| == |gs|
    ensures forall i :: 0 <= i < |r| ==>
      && r[i].line == gs[i].line
      && multiset(r[i].matches) == multiset(gs[i].matches)
      && ScoresDescending(r[i].matches)
    decreases |gs|
  {
    if |gs| == 0 then []
    else
      var sorted := Sorting.SortBy(gs[0].matches, NegatedScore);
      assert forall i, j :: 0 <= i < j < |sorted| ==> NegatedScore(sorted[i]) <= NegatedScore(sorted[j]);
      [Group(gs[0].line, sorted)] + SortRuns(gs[1..])
  }

  lemma {:induction false} ConcatInsert(g: Group, gs: seq<Group>)
    ensures multiset(Concat(Sorting.Insert(g, gs, GroupLine)))
         == multiset(g.matches) + multiset(Concat(gs))
    decreases |gs|
  {
    if |gs| == 0 {
      ConcatCons(g, []);
    } else if GroupLine(g) <= GroupLine(gs[0]) {
      ConcatCons(g, gs);
    } else {
      ConcatInsert(g, gs[1..]);
      ConcatCons(gs[0], Sorting.Insert(g, gs[1..], GroupLine));
      assert gs == [gs[0]] + gs[1..];
      ConcatCons(gs[0], gs[1..]);
    }
  }

  /** Reordering the groups keeps the same results overall. */
  lemma {:induction false} ConcatSortBy(gs: seq<Group>)
    ensures multiset(Concat(Sorting.SortBy(gs, GroupLine))) == multiset(Concat(gs))
    decreases |gs|
  {
    if |gs| != 0 {
      var rest := Sorting.SortBy(gs[1..], GroupLine);
      calc {
        multiset(Concat(Sorting.SortBy(gs, GroupLine)));
        multiset(Concat(Sorting.Insert(gs[0], rest, GroupLine)));
        { ConcatInsert(gs[0], rest); }
        multiset(gs[0].matches) + multiset(Concat(rest));
        { ConcatSortBy(gs[1..]); }
        multiset(gs[0].matches) + multiset(Concat(gs[1..]));
        multiset(gs[0].matches + Concat(gs[1..]));
        { assert gs == [gs[0]] + gs[1..]; ConcatCons(gs[0], gs[1..]); }
        multiset(Concat(gs));
      }
    }
  }

  /** Sorting inside each run keeps the same results overall. */
  lemma {:induction false} ConcatSortRuns(gs: seq<Group>)
    ensures multiset(Concat(SortRuns(gs))) == multiset(Concat(gs))
    decreases |gs|
  {
    if |gs| != 0 {
      ConcatSortRuns(gs[1..]);
      var r := SortRuns(gs);
      assert r == [r[0]] + SortRuns(gs[1..]);
      ConcatCons(r[0], SortRuns(gs[1..]));
      assert gs == [gs[0]] + gs[1..];
      ConcatCons(gs[0], gs[1..]);
    }
  }

  /** A group that survives sorting was already in the input. */
  lemma SortByKeepsGroups(gs: seq<Group>, g: Group)
    requires g in Sorting.SortBy(gs, GroupLine)
    ensures g in gs
  {
    assert g in multiset(Sorting.SortBy(gs, GroupLine));
  }

  lemma RankedRunsWellFormed(rs: seq<MatchResult>, g: Group)
    requires g in SortRuns(Runs(rs))
    ensures |g.matches| > 0 && OnLine(g.matches, g.line) && ScoresDescending(g.matches)
  {
    var runs := Runs(rs);
    var ranked := SortRuns(runs);
    var i :| 0 <= i < |ranked| && ranked[i] == g;
    assert runs[i] in runs;
    forall m | m in g.matches
      ensures LineOf(m) == g.line
    {
      assert m in multiset(runs[i].matches);
    }
  }

  /** Every group that `group_results` emits is well formed. */
  lemma SortedRunsWellFormed(rs: seq<MatchResult>)
    ensures forall g :: g in Sorting.SortBy(SortRuns(Runs(rs)), GroupLine) ==>
      |g.matches| > 0 && OnLine(g.matches, g.line) && ScoresDescending(g.matches)
  {
    var ranked := SortRuns(Runs(rs));
    forall g | g in Sorting.SortBy(ranked, GroupLine)
      ensures |g.matches| > 0 && OnLine(g.matches, g.line) && ScoresDescending(g.matches)
    {
      SortByKeepsGroups(ranked, g);
      RankedRunsWellFormed(rs, g);
    }
  }

  lemma SortedByLine(gs: seq<Group>)
    requires Sorting.SortedBy(gs, GroupLine)
    ensures forall i, j :: 0 <= i < j < |gs| ==> gs[i].line <= gs[j].line
  {
    forall i, j | 0 <= i < j < |gs|
      ensures gs[i].line <= gs[j].line
    {
      assert GroupLine(gs[i]) <= GroupLine(gs[j]);
    }
  }

  /** `group_results`: all the matcher's results and only them, each group
      non-empty, holding results of its own line only, ranked by descending
      score, and the groups ordered by line. There is one group per
      `groupby` run: reordering never merges or splits runs. */
  function GroupResults(rs: seq<MatchResult>): (gs: seq<Group>)
    ensures |gs| == |Runs(rs)|
    ensures multiset(Concat(gs)) == multiset(rs)
    ensures forall g :: g in gs ==> |g.matches| > 0 && OnLine(g.matches, g.line)
    ensures forall g :: g in gs ==> ScoresDescending(g.matches)
    ensures forall i, j :: 0 <= i < j < |gs| ==> gs[i].line <= gs[j].line
  {
    var runs := Runs(rs);
    var ranked := SortRuns(runs);
    var gs := Sorting.SortBy(ranked, GroupLine);
    assert multiset(Concat(gs)) == multiset(rs) by {
      ConcatSortRuns(runs);
      ConcatSortBy(ranked);
    }
    SortedRunsWellFormed(rs);
    SortedByLine(gs);
    assert |gs| == |multiset(gs)| == |multiset(ranked)| == |ranked|;
    gs
  }

  /** Group lines strictly increase along `gs`. */
  ghost predicate StrictlyIncreasing(gs: seq<Group>) {
    forall i, j :: 0 <= i < j < |gs| ==> gs[i].line < gs[j].line
  }

  lemma ExtendOrderedRun(r: MatchResult, tail: seq<Group>)
    requires StrictlyIncreasing(tail) && |tail| > 0 && tail[0].line == LineOf(r)
    requires forall g :: g in tail ==> LineOf(r) <= g.line
    ensures var gs := [Group(tail[0].line, [r] + tail[0].matches)] + tail[1..];
      StrictlyIncreasing(gs) && forall g :: g in gs ==> LineOf(r) <= g.line
  {
    var gs := [Group(tail[0].line, [r] + tail[0].matches)] + tail[1..];
    assert forall i :: 0 < i < |gs| ==> gs[i] == tail[i];
    forall g | g in gs
      ensures LineOf(r) <= g.line
    {
      var i :| 0 <= i < |gs| && gs[i] == g;
    }
  }

  lemma StartOrderedRun(r: MatchResult, tail: seq<Group>)
    requires StrictlyIncreasing(tail) && (|tail| > 0 ==> tail[0].line != LineOf(r))
    requires forall g :: g in tail ==> LineOf(r) <= g.line
    ensures var gs := [Group(LineOf(r), [r])] + tail;
      StrictlyIncreasing(gs) && forall g :: g in gs ==> LineOf(r) <= g.line
  {
    var gs := [Group(LineOf(r), [r])] + tail;
    assert forall i :: 0 < i < |gs| ==> gs[i] == tail[i - 1];
    if |tail| > 0 {
      assert tail[0] in tail;
    }
  }

  lemma {:induction false} RunsOfOrderedInput(rs: seq<MatchResult>)
    requires OrderedByLine(rs)
    ensures StrictlyIncreasing(Runs(rs))
    ensures |rs| > 0 ==> forall g :: g in Runs(rs) ==> LineOf(rs[0]) <= g.line
    decreases |rs|
  {
    if |rs| != 0 {
      var tail := Runs(rs[1..]);
      assert OrderedByLine(rs[1..]);
      RunsOfOrderedInput(rs[1..]);
      assert forall g :: g in tail ==> LineOf(rs[0]) <= g.line by {
        if |rs| > 1 {
          assert LineOf(rs[0]) <= LineOf(rs[1..][0]);
        }
      }
      if |tail| > 0 && tail[0].line == LineOf(rs[0]) {
        ExtendOrderedRun(rs[0], tail);
      } else {
        StartOrderedRun(rs[0], tail);
      }
    }
  }

  /** When the matcher reports its results ordered by incoming line, the
      groups have pairwise distinct lines (strictly increasing). */
  lemma OrderedInputGivesDistinctLines(rs: seq<MatchResult>)
    requires OrderedByLine(rs)
    ensures forall i, j :: 0 <= i < j < |GroupResults(rs)| ==>
      GroupResults(rs)[i].line < GroupResults(rs)[j].line
  {
    var runs := Runs(rs);
    var ranked := SortRuns(runs);
    RunsOfOrderedInput(rs);
    assert StrictlyIncreasing(ranked);
    assert Sorting.SortedBy(ranked, GroupLine) by {
      assert forall i, j :: 0 <= i < j < |ranked| ==> GroupLine(ranked[i]) <= GroupLine(ranked[j]);
    }
    Sorting.SortBySortedIsIdentity(ranked, GroupLine);
  }

  lemma RunsOfThree(a: MatchResult, b: MatchResult, c: MatchResult)
    requires LineOf(a) == 1 && LineOf(b) == 2 && LineOf(c) == 1
    ensures Runs([a, b, c]) == [Group(1, [a]), Group(2, [b]), Group(1, [c])]
  {
    assert [a, b, c][1..] == [b, c] && [b, c][1..] == [c] && [c][1..] == [];
    assert Runs([c]) == [Group(1, [c])];
    assert Runs([b, c]) == [Group(2, [b]), Group(1, [c])];
  }

  lemma SortRunsOfSingletons(ga: Group, gb: Group, gc: Group)
    requires |ga.matches| == 1 && |gb.matches| == 1 && |gc.matches| == 1
    ensures SortRuns([ga, gb, gc]) == [ga, gb, gc]
  {
    assert [ga, gb, gc][1..] == [gb, gc] && [gb, gc][1..] == [gc] && [gc][1..] == [];
    assert Sorting.SortBy(ga.matches, NegatedScore) == ga.matches;
    assert Sorting.SortBy(gb.matches, NegatedScore) == gb.matches;
    assert Sorting.SortBy(gc.matches, NegatedScore) == gc.matches;
    assert SortRuns([gc]) == [gc];
    assert SortRuns([gb, gc]) == [gb, gc];
  }

  lemma SortTwoGroups(gb: Group, gc: Group)
    requires gb.line == 2 && gc.line == 1
    ensures Sorting.SortBy([gb, gc], GroupLine) == [gc, gb]
  {
    assert [gb, gc][1..] == [gc] && [gc][1..] == [];
    assert Sorting.SortBy([gc], GroupLine) == [gc] by {
      assert Sorting.SortBy([gc], GroupLine) == Sorting.Insert(gc, [], GroupLine);
    }
    assert Sorting.SortBy([gb, gc], GroupLine) == Sorting.Insert(gb, [gc], GroupLine);
    assert Sorting.Insert(gb, [], GroupLine) == [gb];
    assert Sorting.Insert(gb, [gc], GroupLine) == [gc] + [gb];
  }

  lemma SortThreeGroups(ga: Group, gb: Group, gc: Group)
    requires ga.line == 1 && gb.line == 2 && gc.line == 1
    ensures Sorting.SortBy([ga, gb, gc], GroupLine) == [ga, gc, gb]
  {
    SortTwoGroups(gb, gc);
    assert [ga, gb, gc][1..] == [gb, gc];
    assert Sorting.SortBy([ga, gb, gc], GroupLine) == Sorting.Insert(ga, [gc, gb], GroupLine);
  }

  /** Without that ordering the group lines can repeat: results on lines
      1, 2, 1 give three groups, two of them for line 1. */
  lemma UnorderedInputRepeatsLines(a: MatchResult, b: MatchResult, c: MatchResult)
    requires LineOf(a) == 1 && LineOf(b) == 2 && LineOf(c) == 1
    ensures |GroupResults([a, b, c])| == 3
    ensures GroupResults([a, b, c])[0].line == 1 && GroupResults([a, b, c])[1].line == 1
  {
    var ga, gb, gc := Group(1, [a]), Group(2, [b]), Group(1, [c]);
    RunsOfThree(a, b, c);
    SortRunsOfSingletons(ga, gb, gc);
    SortThreeGroups(ga, gb, gc);
    assert GroupResults([a, b, c]) == [ga, gc, gb];
  }

  /** Two candidates for incoming line 3, reported lower score first, form
      one group ranked best first. */
  lemma RankingExample(low: MatchResult, high: MatchResult)
    requires LineOf(low) == 3 && LineOf(high) == 3
    requires low.score == 77 && high.score == 91
    ensures GroupResults([low, high]) == [Group(3, [high, low])]
  {
    assert [low, high][1..] == [high] && [high][1..] == [];
    assert Runs([high]) == [Group(3, [high])];
    assert [Group(3, [high])][1..] == [] && [low] + [high] == [low, high];
    assert Runs([low, high]) == [Group(3, [low, high])];
    assert [low, high][1..] == [high];
    assert Sorting.SortBy([high], NegatedScore) == [high];
    assert Sorting.SortBy([low, high], NegatedScore) == [high, low];
    assert SortRuns([Group(3, [low, high])]) == [Group(3, [high, low])];
    assert Sorting.SortBy([Group(3, [high, low])], GroupLine) == [Group(3, [high, low])];
  }
}

=== FILE: header_mapping.dfy ===
/** `generate_header_mapping`: incoming column -> master column, first mapping wins. */
module HeaderMapping {
  import opened Records

  /** The keys the mappings mention. */
  function MappedKeys(ms: seq<Mapping>): set<string> {
    set i | 0 <= i < |ms| :: ms[i].key
  }

  /** No mapping before position `i` has the same key as mapping `i`. */
  ghost predicate FirstOfKey(ms: seq<Mapping>, i: int)
    requires 0 <= i < |ms|
  {
    forall j :: 0 <= j < i ==> ms[j].key != ms[i].key
  }

  /** The header map after the loop has visited every mapping in order:
      a key is recorded only when it is not already present. */
  function HeaderMap(ms: seq<Mapping>): (hm: map<string, string>)
    ensures hm.Keys == MappedKeys(ms)
    ensures forall i :: 0 <= i < |ms| && FirstOfKey(ms, i) ==> hm[ms[i].key] == ms[i].masterKey
    decreases |ms|
  {
    if |ms| == 0 then map[]
    else
      var prefix := ms[..|ms| - 1];
      var m := ms[|ms| - 1];
      var hm := HeaderMap(prefix);
      assert forall i :: 0 <= i < |prefix| ==> prefix[i] == ms[i];
      assert MappedKeys(ms) == MappedKeys(prefix) + {m.key};
      if m.key in hm then hm else hm[m.key := m.masterKey]
  }

  /** One more mapping at the end is recorded only if its key is new. */
  lemma HeaderMapSnoc(ms: seq<Mapping>, m: Mapping)
    ensures HeaderMap(ms + [m])
         == (var hm := HeaderMap(ms); if m.key in hm then hm else hm[m.key := m.masterKey])
  {
    assert (ms + [m])[..|ms|] == ms;
  }

  /** Appending mappings whose keys are already mapped leaves the map as it
      was: later duplicates are ignored. */
  lemma {:induction false} LaterDuplicatesIgnored(ms: seq<Mapping>, extra: seq<Mapping>)
    requires forall j :: 0 <= j < |extra| ==> extra[j].key in MappedKeys(ms)
    ensures HeaderMap(ms + extra) == HeaderMap(ms)
    decreases |extra|
  {
    if |extra| != 0 {
      var shorter := extra[..|extra| - 1];
      var last := extra[|extra| - 1];
      assert ms + extra == (ms + shorter) + [last];
      LaterDuplicatesIgnored(ms, shorter);
      HeaderMapSnoc(ms + shorter, last);
      assert last.key in HeaderMap(ms + shorter);
    } else {
      assert ms + extra == ms;
    }
  }

  /** Building the header map from the mappings listed twice gives the
      same map as listing them once. */
  lemma HeaderMapIdempotent(ms: seq<Mapping>)
    ensures HeaderMap(ms + ms) == HeaderMap(ms)
  {
    LaterDuplicatesIgnored(ms, ms);
  }
}

=== FILE: merge.dfy ===
/**
  The record-building loop of `step_two`: for every group of candidates, the
  master id the user chose, the seeded output record and the per-column
  resolution of the user's MASTER / USER / INCOMING choices.
*/
module Merge {
  import opened Wrappers
  import opened Records
  import opened Form

  /** An output record. A field can hold Python's `None`: a USER choice
      without a text box writes it (see `ResolveField`). */
  type OutRecord = map<string, Option<string>>

  /** The stored options of the run that the loop consults. */
  datatype Options = Options(
    primaryKey: string,
    includeUnmatched: bool,
    onlyModified: bool,
    headerMap: map<string, string>)

  /** Why resolving one column fails: an unrecognised select value, or a
      missing key in `header_map` or in the master record's values. */
  datatype FieldError = InvalidChoice | MissingKey

  /** The exception that aborts the whole resolution, with the line whose
      record raised it: `matches[0]` of an empty group, the explicit
      "Invalid form data." exception, or a dictionary lookup. */
  datatype MergeError = IndexError(line: int) | InvalidFormData(line: int) | KeyError(line: int)

  /** `request.form.get(str(original_line))`: the master id chosen for a line. */
  function ChosenId(form: Form, line: int): Option<string> {
    Get(form, MasterIdField(line))
  }

  /** `master_id or operation["include_unmatched_records"]`. */
  predicate Emits(g: Group, form: Form, opts: Options) {
    Truthy(ChosenId(form, g.line)) || opts.includeUnmatched
  }

  /** `master_id or ""`: the value written into the primary-key column. */
  function PrimaryValue(id: Option<string>): string {
    if Truthy(id) then id.value else ""
  }

  /** The select value submitted for one column of a group's line. */
  function Selection(g: Group, form: Form, key: string): Option<string> {
    Get(form, SelectField(g.line, ChosenId(form, g.line), key))
  }

  /** The free text submitted for one column of a group's line. */
  function UserText(g: Group, form: Form, key: string): Option<string> {
    Get(form, UserEntryField(g.line, ChosenId(form, g.line), key))
  }

  /** The values of the top-ranked incoming record, `matches[0].incoming.values`. */
  function Incoming(g: Group): map<string, string>
    requires |g.matches| > 0
  {
    g.matches[0].incoming.values
  }

  /** The position of the first candidate whose master `record_id()` equals
      `id`, where the MASTER loop stops with `break`. */
  function FirstCandidate(matches: seq<MatchResult>, id: Option<string>): (r: Option<nat>)
    ensures r.Some? ==> r.value < |matches| && Some(matches[r.value].master.recordId) == id
    ensures r.Some? ==> forall j :: 0 <= j < r.value ==> Some(matches[j].master.recordId) != id
    ensures r.None? ==> forall j :: 0 <= j < |matches| ==> Some(matches[j].master.recordId) != id
    decreases |matches|
  {
    if |matches| == 0 then None
    else if Some(matches[0].master.recordId) == id then Some(0)
    else
      match FirstCandidate(matches[1..], id)
      case None => None
      case Some(i) => Some(i + 1)
  }

  /** One column's new value given its current one. The USER branch tests the
      choice string rather than the submitted text, so it always writes the
      text box's value, `None` when the box is absent. */
  function ResolveField(g: Group, form: Form, opts: Options, key: string, current: Option<string>)
    : Result<Option<string>, FieldError>
  {
    match ParseChoice(Selection(g, form, key))
    case UseMaster =>
      if opts.onlyModified then Success(Some(""))
      else (
        match FirstCandidate(g.matches, ChosenId(form, g.line))
        case None => Success(current)
        case Some(i) =>
          var master := g.matches[i].master.values;
          if key in opts.headerMap && opts.headerMap[key] in master
          then Success(Some(master[opts.headerMap[key]]))
          else Failure(MissingKey))
    case UseUser => Success(UserText(g, form, key))
    case KeepIncoming => Success(current)
    case Unrecognised => Failure(InvalidChoice)
  }

  /** The output record before the column loop: the top-ranked incoming
      record's values with the primary-key column set. */
  function Seed(g: Group, form: Form, opts: Options): OutRecord
    requires |g.matches| > 0
  {
    var inc := Incoming(g);
    (map k | k in inc :: Some(inc[k]))[opts.primaryKey := Some(PrimaryValue(ChosenId(form, g.line)))]
  }

  /** One iteration of the column loop; the primary-key column is skipped. */
  function FieldStep(g: Group, form: Form, opts: Options, rec: OutRecord, key: string)
    : (r: Result<OutRecord, FieldError>)
    requires key in rec
    ensures r.Success? ==> r.value.Keys == rec.Keys
    ensures r.Success? ==> forall k :: k in rec && k != key ==> r.value[k] == rec[k]
    ensures key == opts.primaryKey ==> r == Success(rec)
  {
    if key == opts.primaryKey then Success(rec)
    else
      match ResolveField(g, form, opts, key, rec[key])
      case Failure(e) => Failure(e)
      case Success(v) => Success(rec[key := v])
  }

  /** The column loop visiting `keys` in order, stopping at the first failure. */
  function RunSteps(g: Group, form: Form, opts: Options, rec: OutRecord, keys: seq<string>)
    : (r: Result<OutRecord, FieldError>)
    requires forall i :: 0 <= i < |keys| ==> keys[i] in rec
    ensures r.Success? ==> r.value.Keys == rec.Keys
    ensures r.Success? ==> forall k :: k in rec && (k !in keys || k == opts.primaryKey) ==> r.value[k] == rec[k]
    decreases |keys|
  {
    if |keys| == 0 then Success(rec)
    else
      match FieldStep(g, form, opts, rec, keys[0])
      case Failure(e) => Failure(e)
      case Success(next) => RunSteps(g, form, opts, next, keys[1..])
  }

  /** The column loop stated without an iteration order: every column other
      than the primary key resolved from its own current value. Python 2
      dictionaries have no fixed order; when one record holds both an
      unrecognised choice and a failing lookup, this reports the former. */
  function ResolveRecord(g: Group, form: Form, opts: Options, rec: OutRecord)
    : Result<OutRecord, FieldError>
  {
    var pk := opts.primaryKey;
    if exists k :: k in rec && k != pk && ResolveField(g, form, opts, k, rec[k]) == Failure(InvalidChoice)
    then Failure(InvalidChoice)
    else if exists k :: k in rec && k != pk && ResolveField(g, form, opts, k, rec[k]).Failure?
    then Failure(MissingKey)
    else Success(map k | k in rec :: if k == pk then rec[k] else ResolveField(g, form, opts, k, rec[k]).value)
  }

  /** The loop over distinct columns succeeds exactly when every visited
      column other than the primary key resolves, and then each visited
      column holds the value resolved from its value before the loop. */
  lemma {:induction false} RunStepsResolvesEach(
    g: Group, form: Form, opts: Options, rec: OutRecord, keys: seq<string>)
    requires forall i :: 0 <= i < |keys| ==> keys[i] in rec
    requires forall i, j :: 0 <= i < j < |keys| ==> keys[i] != keys[j]
    ensures RunSteps(g, form, opts, rec, keys).Success? <==>
      forall i :: 0 <= i < |keys| && keys[i] != opts.primaryKey ==>
        ResolveField(g, form, opts, keys[i], rec[keys[i]]).Success?
    ensures RunSteps(g, form, opts, rec, keys).Success? ==>
      forall i :: 0 <= i < |keys| && keys[i] != opts.primaryKey ==>
        RunSteps(g, form, opts, rec, keys).value[keys[i]]
          == ResolveField(g, form, opts, keys[i], rec[keys[i]]).value
    decreases |keys|
  {
    if |keys| != 0 {
      var k0 := keys[0];
      var step := FieldStep(g, form, opts, rec, k0);
      if step.Success? {
        var next := step.value;
        var rest := keys[1..];
        assert forall i :: 0 <= i < |rest| ==> rest[i] == keys[i + 1];
        assert forall i :: 0 <= i < |rest| ==> rest[i] != k0 && next[rest[i]] == rec[rest[i]];
        RunStepsResolvesEach(g, form, opts, next, rest);
        if RunSteps(g, form, opts, rec, keys).Success? {
          var out := RunSteps(g, form, opts, rec, keys).value;
          assert k0 !in rest;
          assert out[k0] == next[k0];
        }
      }
    }
  }

  /** The order-free resolution succeeds exactly when every column other
      than the primary key resolves, and then holds the resolved values. */
  lemma ResolveRecordResolvesEach(g: Group, form: Form, opts: Options, rec: OutRecord)
    ensures ResolveRecord(g, form, opts, rec).Success? <==>
      forall k :: k in rec && k != opts.primaryKey ==> ResolveField(g, form, opts, k, rec[k]).Success?
    ensures ResolveRecord(g, form, opts, rec).Success? ==>
      && ResolveRecord(g, form, opts, rec).value.Keys == rec.Keys
      && (opts.primaryKey in rec ==>
            ResolveRecord(g, form, opts, rec).value[opts.primaryKey] == rec[opts.primaryKey])
      && forall k :: k in rec && k != opts.primaryKey ==>
           ResolveRecord(g, form, opts, rec).value[k] == ResolveField(g, form, opts, k, rec[k]).value
  {
  }

  lemma LoopSuccessIsFreeSuccess(g: Group, form: Form, opts: Options, rec: OutRecord, keys: seq<string>)
    requires forall i :: 0 <= i < |keys| ==> keys[i] in rec
    requires forall k :: k in rec ==> k in keys
    requires forall i, j :: 0 <= i < j < |keys| ==> keys[i] != keys[j]
    ensures RunSteps(g, form, opts, rec, keys).Success? <==> ResolveRecord(g, form, opts, rec).Success?
  {
    var pk := opts.primaryKey;
    RunStepsResolvesEach(g, form, opts, rec, keys);
    ResolveRecordResolvesEach(g, form, opts, rec);
    if RunSteps(g, form, opts, rec, keys).Success? {
      forall k | k in rec && k != pk
        ensures ResolveField(g, form, opts, k, rec[k]).Success?
      {
        var i :| 0 <= i < |keys| && keys[i] == k;
      }
    }
    if ResolveRecord(g, form, opts, rec).Success? {
      forall i | 0 <= i < |keys| && keys[i] != pk
        ensures ResolveField(g, form, opts, keys[i], rec[keys[i]]).Success?
      {
        assert keys[i] in rec;
      }
    }
  }

  lemma LoopValueIsFreeValue(g: Group, form: Form, opts: Options, rec: OutRecord, keys: seq<string>)
    requires forall i :: 0 <= i < |keys| ==> keys[i] in rec
    requires forall k :: k in rec ==> k in keys
    requires forall i, j :: 0 <= i < j < |keys| ==> keys[i] != keys[j]
    requires RunSteps(g, form, opts, rec, keys).Success? && ResolveRecord(g, form, opts, rec).Success?
    ensures RunSteps(g, form, opts, rec, keys).value == ResolveRecord(g, form, opts, rec).value
  {
    var pk := opts.primaryKey;
    var loop := RunSteps(g, form, opts, rec, keys).value;
    var free := ResolveRecord(g, form, opts, rec).value;
    RunStepsResolvesEach(g, form, opts, rec, keys);
    ResolveRecordResolvesEach(g, form, opts, rec);
    forall k | k in rec
      ensures loop[k] == free[k]
    {
      if k != pk {
        var i :| 0 <= i < |keys| && keys[i] == k;
        assert loop[keys[i]] == ResolveField(g, form, opts, keys[i], rec[keys[i]]).value;
      }
    }
  }

  /** However the dictionary orders the record's columns, running the loop
      over them gives the order-free result: both succeed or fail together,
      and on success they give the same record. */
  lemma LoopOrderIrrelevant(g: Group, form: Form, opts: Options, rec: OutRecord, keys: seq<string>)
    requires forall i :: 0 <= i < |keys| ==> keys[i] in rec
    requires forall k :: k in rec ==> k in keys
    requires forall i, j :: 0 <= i < j < |keys| ==> keys[i] != keys[j]
    ensures RunSteps(g, form, opts, rec, keys).Success? <==> ResolveRecord(g, form, opts, rec).Success?
    ensures RunSteps(g, form, opts, rec, keys).Success? ==>
      RunSteps(g, form, opts, rec, keys) == ResolveRecord(g, form, opts, rec)
  {
    LoopSuccessIsFreeSuccess(g, form, opts, rec, keys);
    if RunSteps(g, form, opts, rec, keys).Success? {
      LoopValueIsFreeValue(g, form, opts, rec, keys);
    }
  }

  /** The select values the resolution accepts: `"MASTER"`, `"USER"`,
      `"INCOMING"`, empty, or no value at all. */
  predicate Recognised(v: Option<string>) {
    v == None || v == Some("MASTER") || v == Some("USER") || v == Some("INCOMING") || v == Some("")
  }

  /** Column `key` of a group's record can be resolved: its select value is
      recognised, and a MASTER choice that finds the chosen candidate can
      look the column up through the header map in that candidate. */
  ghost predicate Resolvable(g: Group, form: Form, opts: Options, key: string)
    requires |g.matches| > 0
  {
    && Recognised(Selection(g, form, key))
    && (Selection(g, form, key) == Some("MASTER") && !opts.onlyModified ==>
          match FirstCandidate(g.matches, ChosenId(form, g.line))
          case None => true
          case Some(i) => key in opts.headerMap && opts.headerMap[key] in g.matches[i].master.values)
  }

  /** `v` is the value column `key` ends with, given the user's choice. */
  ghost predicate ResolvedAs(g: Group, form: Form, opts: Options, key: string, v: Option<string>)
    requires |g.matches| > 0 && key in Incoming(g)
  {
    var sel := Selection(g, form, key);
    var incoming := Some(Incoming(g)[key]);
    && (sel == Some("MASTER") && opts.onlyModified ==> v == Some(""))
    && (sel == Some("MASTER") && !opts.onlyModified ==>
          match FirstCandidate(g.matches, ChosenId(form, g.line))
          case None => v == incoming
          case Some(i) =>
            && key in opts.headerMap
            && opts.headerMap[key] in g.matches[i].master.values
            && v == Some(g.matches[i].master.values[opts.headerMap[key]]))
    && (sel == Some("USER") ==> v == UserText(g, form, key))
    && (sel == None || sel == Some("INCOMING") || sel == Some("") ==> v == incoming)
  }

  /** `out` is the record built for group `g`: the incoming columns plus the
      primary key, the primary key holding the chosen master id or `""`, and
      every other column resolved as chosen. */
  ghost predicate LineRecord(g: Group, form: Form, opts: Options, out: OutRecord)
    requires |g.matches| > 0
  {
    && out.Keys == Incoming(g).Keys + {opts.primaryKey}
    && out[opts.primaryKey] == Some(PrimaryValue(ChosenId(form, g.line)))
    && forall k :: k in Incoming(g) && k != opts.primaryKey ==> ResolvedAs(g, form, opts, k, out[k])
  }

  lemma FieldMeaning(g: Group, form: Form, opts: Options, key: string)
    requires |g.matches| > 0 && key in Incoming(g)
    ensures ResolveField(g, form, opts, key, Some(Incoming(g)[key])).Success? <==> Resolvable(g, form, opts, key)
    ensures ResolveField(g, form, opts, key, Some(Incoming(g)[key])) == Failure(InvalidChoice)
        <==> !Recognised(Selection(g, form, key))
    ensures ResolveField(g, form, opts, key, Some(Incoming(g)[key])).Success? ==>
      ResolvedAs(g, form, opts, key, ResolveField(g, form, opts, key, Some(Incoming(g)[key])).value)
  {
  }

  lemma SeedMeaning(g: Group, form: Form, opts: Options)
    requires |g.matches| > 0
    ensures Seed(g, form, opts).Keys == Incoming(g).Keys + {opts.primaryKey}
    ensures Seed(g, form, opts)[opts.primaryKey] == Some(PrimaryValue(ChosenId(form, g.line)))
    ensures forall k :: k in Incoming(g) && k != opts.primaryKey ==> Seed(g, form, opts)[k] == Some(Incoming(g)[k])
  {
  }

  /** The record for one group, or the exception that aborts the resolution. */
  function MergeLine(g: Group, form: Form, opts: Options): Result<OutRecord, MergeError>
  {
    if |g.matches| == 0 then Failure(IndexError(g.line))
    else
      match ResolveRecord(g, form, opts, Seed(g, form, opts))
      case Success(out) => Success(out)
      case Failure(InvalidChoice) => Failure(InvalidFormData(g.line))
      case Failure(MissingKey) => Failure(KeyError(g.line))
  }

  /** What one group's record is: `IndexError` exactly for an empty group;
      otherwise it is built exactly when every column other than the
      primary key is resolvable, an unrecognised select value anywhere
      aborts with "Invalid form data.", and a built record holds the
      incoming columns plus the primary key, resolved as chosen. */
  lemma MergeLineMeaning(g: Group, form: Form, opts: Options)
    ensures |g.matches| == 0 <==> MergeLine(g, form, opts) == Failure(IndexError(g.line))
    ensures |g.matches| > 0 ==>
      (MergeLine(g, form, opts).Success? <==>
        forall k :: k in Incoming(g) && k != opts.primaryKey ==> Resolvable(g, form, opts, k))
    ensures |g.matches| > 0
      && (exists k :: k in Incoming(g) && k != opts.primaryKey && !Recognised(Selection(g, form, k)))
      ==> MergeLine(g, form, opts) == Failure(InvalidFormData(g.line))
    ensures MergeLine(g, form, opts).Success? ==>
      |g.matches| > 0 && LineRecord(g, form, opts, MergeLine(g, form, opts).value)
  {
    if |g.matches| > 0 {
      var seed := Seed(g, form, opts);
      SeedMeaning(g, form, opts);
      ResolveRecordResolvesEach(g, form, opts, seed);
      forall k | k in Incoming(g) && k != opts.primaryKey
        ensures && (ResolveField(g, form, opts, k, seed[k]).Success? <==> Resolvable(g, form, opts, k))
                && (ResolveField(g, form, opts, k, seed[k]) == Failure(InvalidChoice) <==>
                      !Recognised(Selection(g, form, k)))
                && (ResolveField(g, form, opts, k, seed[k]).Success? ==>
                      ResolvedAs(g, form, opts, k, ResolveField(g, form, opts, k, seed[k]).value))
      {
        FieldMeaning(g, form, opts, k);
      }
    }
  }
}

=== FILE: records.dfy ===
/**
  The entities that the import wizard receives from the external `trapeza`
  library. Their internals are not modelled: a record is its origin line,
  its column values and the identifier the library reports for it.
*/
module Records {

  /** One row of a tabular source. `recordId` is what the library's
      `record_id()` reports; on the master side it is the primary-key value. */
  datatype Record = Record(inputLine: int, values: map<string, string>, recordId: string)

  /** One pairing produced by the external matcher: an incoming record, a
      candidate master record and the similarity score of the pair. */
  datatype MatchResult = MatchResult(incoming: Record, master: Record, score: int)

  /** One profile mapping from an incoming column to a master column. */
  datatype Mapping = Mapping(key: string, masterKey: string)

  /** The candidates proposed for one incoming line. */
  datatype Group = Group(line: int, matches: seq<MatchResult>)

  /** The incoming line a match result belongs to (the grouping key). */
  function LineOf(m: MatchResult): int {
    m.incoming.inputLine
  }

  /** All match results of a list of groups, group after group. */
  function Concat(gs: seq<Group>): seq<MatchResult>
  {
    if |gs| == 0 then [] else gs[0].matches + Concat(gs[1..])
  }
}

=== FILE: resolution.dfy ===
/**
  The body of `step_two` without its I/O: the header map built from the
  stored profile, then one output record per group that has a chosen master
  id (or every group, when unmatched records are included).
*/
module Resolution {
  import opened Wrappers
  import opened Records
  import opened Form
  import opened Merge
  import HeaderMapping
  import Grouping

  /** The elements of `xs` that `keep` accepts, in order. */
  function Filter<T(!new)>(xs: seq<T>, keep: T -> bool): (ys: seq<T>)
    ensures forall y :: y in ys <==> y in xs && keep(y)
    ensures |ys| <= |xs|
    decreases |xs|
  {
    if |xs| == 0 then []
    else (if keep(xs[0]) then [xs[0]] else []) + Filter(xs[1..], keep)
  }

  /** A loop over `xs` that builds an output for every element `keep`
      accepts and stops at the first build that raises. */
  function Collect<T(!new), U, E>(xs: seq<T>, keep: T -> bool, build: T -> Result<U, E>): Result<seq<U>, E>
    decreases |xs|
  {
    if |xs| == 0 then Success([])
    else if keep(xs[0]) then
      match build(xs[0])
      case Failure(e) => Failure(e)
      case Success(out) =>
        match Collect(xs[1..], keep, build)
        case Failure(e) => Failure(e)
        case Success(outs) => Success([out] + outs)
    else Collect(xs[1..], keep, build)
  }

  /** Every element of `es` builds. */
  ghost predicate AllBuild<T, U, E>(es: seq<T>, build: T -> Result<U, E>) {
    forall i :: 0 <= i < |es| ==> build(es[i]).Success?
  }

  /** The loop succeeds exactly when every kept element builds, and then
      yields their outputs in order; otherwise it reports the error of the
      first kept element that fails. */
  lemma {:induction false} CollectMeaning<T(!new), U, E>(xs: seq<T>, keep: T -> bool, build: T -> Result<U, E>)
    ensures Collect(xs, keep, build).Success? <==> AllBuild(Filter(xs, keep), build)
    ensures Collect(xs, keep, build).Success? ==>
      && |Collect(xs, keep, build).value| == |Filter(xs, keep)|
      && forall i :: 0 <= i < |Filter(xs, keep)| ==>
           build(Filter(xs, keep)[i]) == Success(Collect(xs, keep, build).value[i])
    ensures Collect(xs, keep, build).Failure? ==>
      exists i :: (0 <= i < |Filter(xs, keep)|
        && build(Filter(xs, keep)[i]) == Failure(Collect(xs, keep, build).error)
        && AllBuild(Filter(xs, keep)[..i], build))
    decreases |xs|
  {
    if |xs| != 0 {
      var x := xs[0];
      var r := Collect(xs, keep, build);
      var rest := Collect(xs[1..], keep, build);
      var es := Filter(xs, keep);
      var tail := Filter(xs[1..], keep);
      CollectMeaning(xs[1..], keep, build);
      if keep(x) {
        assert es == [x] + tail;
        if build(x).Failure? {
          assert es[..0] == [];
          assert !build(es[0]).Success?;
        } else if rest.Failure? {
          var i :| 0 <= i < |tail| && build(tail[i]) == Failure(rest.error) && AllBuild(tail[..i], build);
          assert es[i + 1] == tail[i];
          var pre := es[..i + 1];
          assert AllBuild(pre, build) by {
            forall j | 0 <= j < |pre|
              ensures build(pre[j]).Success?
            {
              if j > 0 {
                assert pre[j] == tail[..i][j - 1];
              }
            }
          }
          assert !build(es[i + 1]).Success?;
        } else {
          assert r == Success([build(x).value] + rest.value);
          forall j | 0 <= j < |es|
            ensures build(es[j]) == Success(r.value[j])
          {
            if j > 0 {
              assert es[j] == tail[j - 1];
            }
          }
        }
      } else {
        assert es == tail;
      }
    }
  }

  /** The groups that get an output record, in their original order. */
  function Emitted(groups: seq<Group>, form: Form, opts: Options): seq<Group> {
    Filter(groups, g => Emits(g, form, opts))
  }

  /** The loop over the groups in `step_two`. */
  function MergeAll(groups: seq<Group>, form: Form, opts: Options): Result<seq<OutRecord>, MergeError> {
    Collect(groups, g => Emits(g, form, opts), g => MergeLine(g, form, opts))
  }

  /** The resolution outputs one record per emitted group, in group order,
      each being that group's record, exactly when every emitted group's
      record can be built; otherwise it raises the exception of the first
      emitted group that fails, and nothing is output. */
  lemma MergeAllMeaning(groups: seq<Group>, form: Form, opts: Options)
    ensures forall g :: g in Emitted(groups, form, opts) <==> g in groups && Emits(g, form, opts)
    ensures MergeAll(groups, form, opts).Success? <==>
      forall i :: 0 <= i < |Emitted(groups, form, opts)| ==> MergeLine(Emitted(groups, form, opts)[i], form, opts).Success?
    ensures MergeAll(groups, form, opts).Success? ==>
      && |MergeAll(groups, form, opts).value| == |Emitted(groups, form, opts)|
      && forall i :: 0 <= i < |Emitted(groups, form, opts)| ==>
           MergeLine(Emitted(groups, form, opts)[i], form, opts) == Success(MergeAll(groups, form, opts).value[i])
    ensures MergeAll(groups, form, opts).Failure? ==>
      exists i :: (0 <= i < |Emitted(groups, form, opts)|
        && MergeLine(Emitted(groups, form, opts)[i], form, opts) == Failure(MergeAll(groups, form, opts).error)
        && forall j :: 0 <= j < i ==> MergeLine(Emitted(groups, form, opts)[j], form, opts).Success?)
  {
    var keep := g => Emits(g, form, opts);
    var build := g => MergeLine(g, form, opts);
    CollectMeaning(groups, keep, build);
    var es := Emitted(groups, form, opts);
    var r := MergeAll(groups, form, opts);
    if r.Failure? {
      var i :| 0 <= i < |es| && build(es[i]) == Failure(r.error) && AllBuild(es[..i], build);
      forall j | 0 <= j < i
        ensures MergeLine(es[j], form, opts).Success?
      {
        assert es[..i][j] == es[j];
      }
    }
  }

  /** The state `step_one` stored for the resolution step. */
  datatype Operation = Operation(
    primaryKey: string,
    mappings: seq<Mapping>,
    results: seq<Group>,
    includeUnmatched: bool,
    onlyModified: bool)

  /** The options the loop reads, with the header map built from the profile. */
  function OptionsOf(op: Operation): Options {
    Options(op.primaryKey, op.includeUnmatched, op.onlyModified, HeaderMapping.HeaderMap(op.mappings))
  }

  /** `step_two` from the stored operation and the submitted form. */
  function StepTwo(op: Operation, form: Form): Result<seq<OutRecord>, MergeError> {
    MergeAll(op.results, form, OptionsOf(op))
  }

  /** Every output record is the record of its emitted group: the incoming
      columns plus the primary key, which holds the chosen master id or
      `""`, and every other column resolved as the user chose. */
  lemma OutputRecords(groups: seq<Group>, form: Form, opts: Options)
    requires MergeAll(groups, form, opts).Success?
    ensures |MergeAll(groups, form, opts).value| == |Emitted(groups, form, opts)|
    ensures forall i :: 0 <= i < |Emitted(groups, form, opts)| ==>
      var g := Emitted(groups, form, opts)[i];
      |g.matches| > 0 && LineRecord(g, form, opts, MergeAll(groups, form, opts).value[i])
  {
    MergeAllMeaning(groups, form, opts);
    var es := Emitted(groups, form, opts);
    forall i | 0 <= i < |es|
      ensures |es[i].matches| > 0 && LineRecord(es[i], form, opts, MergeAll(groups, form, opts).value[i])
    {
      MergeLineMeaning(es[i], form, opts);
    }
  }

  /** One unrecognised select value for a column of an emitted group aborts
      the whole resolution: no record at all is output. */
  lemma InvalidChoiceAbortsResolution(groups: seq<Group>, form: Form, opts: Options, g: Group, key: string)
    requires g in groups && Emits(g, form, opts) && |g.matches| > 0
    requires key in Incoming(g) && key != opts.primaryKey
    requires !Recognised(Selection(g, form, key))
    ensures MergeAll(groups, form, opts).Failure?
  {
    MergeAllMeaning(groups, form, opts);
    MergeLineMeaning(g, form, opts);
    var es := Emitted(groups, form, opts);
    assert g in es;
    var i :| 0 <= i < |es| && es[i] == g;
  }

  lemma NonEmptyGroupsNeverIndexError(groups: seq<Group>, form: Form, opts: Options)
    requires forall g :: g in groups ==> |g.matches| > 0
    ensures MergeAll(groups, form, opts).Failure? ==> !MergeAll(groups, form, opts).error.IndexError?
  {
    var r := MergeAll(groups, form, opts);
    if r.Failure? {
      var es := Emitted(groups, form, opts);
      var i: int :| 0 <= i < |es| && MergeLine(es[i], form, opts) == Failure(r.error) by {
        MergeAllMeaning(groups, form, opts);
      }
      assert es[i] in groups;
      MergeLineMeaning(es[i], form, opts);
    }
  }

  /** Groups produced by `group_results` are never empty, so resolving an
      operation stored by `step_one` never fails on `matches[0]`. */
  lemma GroupedResultsNeverIndexError(op: Operation, rs: seq<MatchResult>, form: Form)
    requires op.results == Grouping.GroupResults(rs)
    ensures StepTwo(op, form).Failure? ==> !StepTwo(op, form).error.IndexError?
  {
    NonEmptyGroupsNeverIndexError(op.results, form, OptionsOf(op));
  }

  /** A MASTER choice (without "output only modified entries") copies, from
      the first candidate carrying the chosen master id, the master column
      that the FIRST profile mapping of that incoming column names. */
  lemma MasterUsesFirstMapping(op: Operation, form: Form, i: int, key: string, m: int)
    requires StepTwo(op, form).Success?
    requires 0 <= i < |Emitted(op.results, form, OptionsOf(op))|
    requires 0 <= m < |op.mappings| && op.mappings[m].key == key && HeaderMapping.FirstOfKey(op.mappings, m)
    requires !op.onlyModified && key != op.primaryKey
    requires var g := Emitted(op.results, form, OptionsOf(op))[i];
      |g.matches| > 0 && key in Incoming(g) && Selection(g, form, key) == Some("MASTER")
      && FirstCandidate(g.matches, ChosenId(form, g.line)).Some?
    ensures var g := Emitted(op.results, form, OptionsOf(op))[i];
      var c := g.matches[FirstCandidate(g.matches, ChosenId(form, g.line)).value].master;
      && op.mappings[m].masterKey in c.values
      && i < |StepTwo(op, form).value|
      && key in StepTwo(op, form).value[i]
      && StepTwo(op, form).value[i][key] == Some(c.values[op.mappings[m].masterKey])
  {
    OutputRecords(op.results, form, OptionsOf(op));
  }

  /** The primary key of every output record: the chosen master id when one
      was chosen, and `""` only for a line output because unmatched records
      are included. */
  lemma EmittedPrimaryKey(groups: seq<Group>, form: Form, opts: Options)
    requires MergeAll(groups, form, opts).Success?
    ensures |MergeAll(groups, form, opts).value| == |Emitted(groups, form, opts)|
    ensures forall i :: 0 <= i < |MergeAll(groups, form, opts).value| ==>
      var g := Emitted(groups, form, opts)[i];
      var out := MergeAll(groups, form, opts).value[i];
      && opts.primaryKey in out
      && (Truthy(ChosenId(form, g.line)) ==> out[opts.primaryKey] == ChosenId(form, g.line))
      && (out[opts.primaryKey] == Some("") ==> opts.includeUnmatched)
  {
    OutputRecords(groups, form, opts);
    MergeAllMeaning(groups, form, opts);
    var es := Emitted(groups, form, opts);
    forall i | 0 <= i < |es|
      ensures Emits(es[i], form, opts)
    {
      assert es[i] in es;
    }
  }

  /** `step_two` on a stored operation: it uses the header map built from the
      profile's mappings, outputs one record per emitted line in group order
      (line order when the results come from `Grouping.GroupResults`), each
      being that line's record, exactly when every emitted line's record
      builds, and otherwise outputs nothing. */
  lemma StepTwoMeaning(op: Operation, form: Form)
    ensures OptionsOf(op).headerMap.Keys == HeaderMapping.MappedKeys(op.mappings)
    ensures StepTwo(op, form).Success? <==>
      forall i :: 0 <= i < |Emitted(op.results, form, OptionsOf(op))| ==>
        MergeLine(Emitted(op.results, form, OptionsOf(op))[i], form, OptionsOf(op)).Success?
    ensures StepTwo(op, form).Success? ==>
      && |StepTwo(op, form).value| == |Emitted(op.results, form, OptionsOf(op))|
      && forall i :: 0 <= i < |StepTwo(op, form).value| ==>
           var g := Emitted(op.results, form, OptionsOf(op))[i];
           |g.matches| > 0 && LineRecord(g, form, OptionsOf(op), StepTwo(op, form).value[i])
  {
    MergeAllMeaning(op.results, form, OptionsOf(op));
    if StepTwo(op, form).Success? {
      OutputRecords(op.results, form, OptionsOf(op));
    }
  }
}

=== FILE: sorting.dfy ===
/**
  Python's `sorted(xs, key=...)`: a stable sort. `reverse=True` also keeps
  equal elements in their original order, so a descending sort is modelled
  as an ascending sort by the negated key.
*/
module Sorting {

  /** `s` is ordered by non-decreasing `key`. */
  ghost predicate SortedBy<T>(s: seq<T>, key: T -> int) {
    forall i, j :: 0 <= i < j < |s| ==> key(s[i]) <= key(s[j])
  }

  /** The elements of `s` whose key is `v`, in their order in `s`. */
  function WithKey<T>(s: seq<T>, key: T -> int, v: int): seq<T>
  {
    if |s| == 0 then []
    else (if key(s[0]) == v then [s[0]] else []) + WithKey(s[1..], key, v)
  }

  /** Places `x` in front of the first element whose key is not smaller,
      so `x` precedes every element with an equal key. */
  function Insert<T>(x: T, s: seq<T>, key: T -> int): (r: seq<T>)
    ensures multiset(r) == multiset(s) + multiset{x}
  {
    if |s| == 0 then [x]
    else if key(x) <= key(s[0]) then [x] + s
    else
      assert s == [s[0]] + s[1..];
      [s[0]] + Insert(x, s[1..], key)
  }

  lemma {:induction false} InsertSorted<T>(x: T, s: seq<T>, key: T -> int)
    requires SortedBy(s, key)
    ensures SortedBy(Insert(x, s, key), key)
    decreases |s|
  {
    if |s| != 0 && key(s[0]) < key(x) {
      var rest := Insert(x, s[1..], key);
      assert SortedBy(s[1..], key);
      InsertSorted(x, s[1..], key);
      forall j | 0 <= j < |rest|
        ensures key(s[0]) <= key(rest[j])
      {
        assert rest[j] in multiset(rest);
        assert rest[j] == x || rest[j] in multiset(s[1..]);
        if rest[j] != x {
          var k :| 0 <= k < |s[1..]| && s[1..][k] == rest[j];
          assert s[1..][k] == s[k + 1];
        }
      }
      var r := [s[0]] + rest;
      forall i, j | 0 <= i < j < |r|
        ensures key(r[i]) <= key(r[j])
      {
        if i > 0 {
          assert r[i] == rest[i - 1] && r[j] == rest[j - 1];
        } else {
          assert r[j] == rest[j - 1];
        }
      }
    }
  }

  /** Stable sort by ascending `key`: the result is an ordered permutation. */
  function SortBy<T>(s: seq<T>, key: T -> int): (r: seq<T>)
    ensures multiset(r) == multiset(s)
    ensures SortedBy(r, key)
  {
    if |s| == 0 then []
    else
      assert s == [s[0]] + s[1..];
      var rest := SortBy(s[1..], key);
      InsertSorted(s[0], rest, key);
      Insert(s[0], rest, key)
  }

  lemma {:induction false} InsertWithKey<T>(x: T, s: seq<T>, key: T -> int, v: int)
    ensures WithKey(Insert(x, s, key), key, v)
         == (if key(x) == v then [x] else []) + WithKey(s, key, v)
    decreases |s|
  {
    var hx: seq<T> := if key(x) == v then [x] else [];
    if |s| == 0 {
      assert WithKey([x], key, v) == hx + WithKey([x][1..], key, v);
    } else if key(x) <= key(s[0]) {
      assert ([x] + s)[1..] == s;
      assert WithKey([x] + s, key, v) == hx + WithKey(s, key, v);
    } else {
      var rest := Insert(x, s[1..], key);
      var hs: seq<T> := if key(s[0]) == v then [s[0]] else [];
      assert ([s[0]] + rest)[1..] == rest;
      calc {
        WithKey(Insert(x, s, key), key, v);
        WithKey([s[0]] + rest, key, v);
        hs + WithKey(rest, key, v);
        { InsertWithKey(x, s[1..], key, v); }
        hs + (hx + WithKey(s[1..], key, v));
        { assert hs == [] || hx == []; }
        hx + (hs + WithKey(s[1..], key, v));
        hx + WithKey(s, key, v);
      }
    }
  }

  /** Stability: for every key value, the elements carrying it appear in the
      result in the same order as in the input. */
  lemma {:induction false} SortByStable<T>(s: seq<T>, key: T -> int, v: int)
    ensures WithKey(SortBy(s, key), key, v) == WithKey(s, key, v)
    decreases |s|
  {
    if |s| != 0 {
      SortByStable(s[1..], key, v);
      InsertWithKey(s[0], SortBy(s[1..], key), key, v);
    }
  }

  /** Sorting a sequence that is already in order changes nothing. */
  lemma {:induction false} SortBySortedIsIdentity<T>(s: seq<T>, key: T -> int)
    requires SortedBy(s, key)
    ensures SortBy(s, key) == s
    decreases |s|
  {
    if |s| != 0 {
      assert SortedBy(s[1..], key);
      SortBySortedIsIdentity(s[1..], key);
      if |s| > 1 {
        assert key(s[0]) <= key(s[1..][0]);
      }
    }
  }
}

=== FILE: wrappers.dfy ===
/** Option and Result values used in place of Python's `None` and of raised exceptions. */
module Wrappers {

  /** A value that may be missing, as Python's `None`. */
  datatype Option<+T> = None | Some(value: T)

  /** The outcome of an operation that either produces a value or raises an error. */
  datatype Result<+R, +E> = Success(value: R) | Failure(error: E)
}
